=== FILE: README.md ===
# Visitor check-in: camera capture session

A Dafny model of the camera capture session of the visitor check-in page
(`src/App.js`, the `App` component). It covers the following:

- Asking the browser for a camera stream.
- Binding the stream to the `<video>` element and starting playback. Playback
  starts from two triggers: a `loadedmetadata` listener and a 1000 ms
  fallback timer.
- Taking one JPEG frame through the hidden `<canvas>`, and rejecting frames
  from a video that is not ready and encodings under 100 characters.
- Releasing the camera. After a capture every track is stopped and the video
  is paused and detached. At unmount every track is stopped; React has
  already cleared the video ref by then, so the video is not touched.
- The gating of the check-in form on a captured photo.

Browser objects are reduced to the state the component reads and writes:

- A stream is an object whose identity is its reference. It has an array of
  per-track "stopped" flags.
- The video holds `readyState`, its size, `isConnected`, `srcObject`,
  `paused` and whether the metadata listener is registered.
- The canvas holds its size and whether it gives a 2D context.

Notifications are a log of (kind, message). Every asynchronous completion is
a method that the environment calls, in any order:

- a getUserMedia result,
- the metadata event,
- the timer,
- a React commit.

Modules:

- `Media` — streams, video and canvas, and the loop that stops a stream's tracks.
- `Capture` — the pure checks and outcome of one capture attempt (`Gate`, `Take`, the messages).
- `Playback` — one run of the stream-binding effect as a value (`mounted`, the
  pending timer, the pending metadata event, the number of `play()` calls),
  with lemmas over any sequence of triggers.
- `CheckIn` — the form and `isFormValid`.
- `Session` — class `App`, the component's state and event handlers. Its
  invariant `Valid()` says:
  - the camera is shown active only while a stream is held;
  - the preview equals the photo;
  - a photo is at least 100 characters;
  - the live binding's listener matches its `mounted` flag;
  - the live binding has called `play()` at most twice.
- `Scenarios` — whole runs on fresh objects, such as start, grant, commit,
  metadata, capture of a 1280×720 frame.

`videoRef` and `canvasRef` are used in `src/App.js` (lines 81, 93-94, 460,
752, 794) but never declared. Only `cameraStreamRef` is declared (line 45).
The model treats them as fields `video` and `canvas`, either of which may be
null.

Some behaviour a tidier session design would avoid is kept as the code has it:

- The metadata event does not cancel the fallback timer, so a binding may
  call `play()` twice (`Playback.MetadataLeavesTimerArmed`).
- `startCamera` does not refuse to run while a stream is held. A second grant
  replaces the first stream without stopping it (`Scenarios.SecondGrantLeaksFirst`).
- A getUserMedia result that arrives after a stop is not discarded
  (`Scenarios.LateGrantAfterStop`).
- The session is a handful of flags (`stream`, `cameraActive`, `photo`), not
  one state enumeration.

## Model

| member | source | states |
|---|---|---|
| Media.MediaStream.StopTracks | src/App.js:76-78 | after the loop every track of the stream is stopped; stopping an already stopped track is harmless |
| Capture.Gate | src/App.js:100-127 | the frame may be drawn exactly when both surfaces exist, readyState >= 2 and width and height are non-zero; a missing surface is reported first, then a low readyState (NotReady with that readyState), then a zero size (NoDimensions with the size, for every ready video of zero width or height) |
| Capture.Take | src/App.js:100-154 | a capture succeeds exactly when the gate passes, the canvas gives a 2D context and the data URL has at least 100 characters; the photo is then the encoder's output; a gate failure is reported as such, a missing 2D context as NoContext and a short encoding as TooSmall with its length |
| Capture.Message | src/App.js:102-171 | each capture failure is announced with the source's own text; the too-small text is the fixed prefix followed by digits that spell the rejected length |
| Capture.MessageIdentifiesFailure | src/App.js:102-171 | two failures announced with the same text are of the same kind, and two too-small failures with the same text rejected the same length |
| Capture.Decimal | src/App.js:153 | the length quoted in the too-small message is written in canonical decimal: digits that spell exactly that length, with no leading zero (so a length of 0 is written "0") |
| Playback.Fire | src/App.js:473-507 | a trigger adds at most one play() call, and adds one exactly when the binding is mounted, the element connected and that trigger (metadata or timer) had not fired yet; a delivered trigger is disarmed (metadata clears its due flag, the timer and cleanup clear the pending timer) and never re-arms; only cleanup clears mounted |
| Playback.FreshWithinBudget | src/App.js:470-501 | a new binding starts with no play and two armed triggers, within the budget of two |
| Playback.FireKeepsBudget | src/App.js:473-507 | every trigger keeps plays plus still-armed triggers at most two |
| Playback.RunKeepsBudget | src/App.js:473-507 | any sequence of triggers keeps that budget |
| Playback.AtMostTwoPlays | src/App.js:486-501 | whatever the order of the metadata event, timer firings and cleanup, and however often the timer and cleanup are delivered, one binding calls play() at most twice (the source's loadedmetadata is raised once, see Left out)  |
| Playback.UnmountedStaysSilent | src/App.js:473-475 | once mounted is false no trigger calls play() and mounted stays false |
| Playback.NoPlayAfterCleanup | src/App.js:503-507 | after the effect's cleanup no later trigger calls play() |
| Playback.MetadataLeavesTimerArmed | src/App.js:486-501 | when metadata arrives and then the timer fires on a connected element, play() is called twice: the timer is not cancelled |
| Playback.RunMonotone | src/App.js:473-501 | the count of play() calls never decreases |
| Playback.FallbackPlays | src/App.js:495-501 | if the 1000 ms timer fires on a connected element while mounted, with only metadata events before it, play() has been called at least once whether or not metadata ever arrived |
| CheckIn.IsFormValid | src/App.js:515 | a submittable form always holds a non-empty photo, so the submit button never enables a submission the photo guard would refuse |
| CheckIn.PhotoCompletesForm | src/App.js:515 | once name, phone and flat number are filled, the form is submittable exactly when a non-empty photo is held |
| CheckIn.EmailIsOptional | src/App.js:515 | the flat owner's e-mail does not affect submittability |
| CheckIn.ResetFormIsInvalid | src/App.js:274-284 | a reset form is never submittable |
| Session.App.constructor | src/App.js:16-45 | the first render: empty form, no photo, camera inactive, no stream, nothing bound |
| Session.App.Notify | src/App.js:191-196 | showNotification adds the (kind, message) pair to what has been shown |
| Session.App.StartCamera | src/App.js:48-58 | a click issues one getUserMedia request and changes nothing else, even while a stream is held |
| Session.App.AcquisitionSettled | src/App.js:51-70 | a granted stream becomes `stream` and the camera is shown active with an info notice; a refusal leaves both unchanged and only adds the error notice; no track of a replaced stream is stopped |
| Session.App.StopCamera | src/App.js:74-89 | every track of the closure's stream is stopped, the video is paused and its srcObject cleared, `stream` is null and the camera inactive; with no stream no track is touched |
| Session.App.CapturePhoto | src/App.js:92-173 | on any failure photo, preview, stream, camera flag, tracks and video playback are unchanged and one error notice is added; past the readiness checks the canvas takes the video's width and height; on success photo and preview are the same encoding, the camera is stopped (all old tracks stopped, stream null, inactive) and a success notice is added; the element refs and the request count never change |
| Session.App.RetakePhoto | src/App.js:176-180 | photo and preview are cleared and one new camera request is issued |
| Session.App.ResetForm | src/App.js:274-284 | every form field, the photo, the preview and the camera flag are cleared, the form is no longer submittable, and the stream is left as it was |
| Session.App.HandleSubmit | src/App.js:216-222 | submission proceeds exactly when a photo is held; without one an error notice is added and nothing is sent |
| Session.App.SetupBinding | src/App.js:458-501 | with no stream, no video, or the stream already recorded in cameraStreamRef nothing changes; otherwise the stream is recorded, becomes the video's source, the listener is registered and a fresh binding with both triggers armed begins |
| Session.App.CleanupBinding | src/App.js:503-507 | the binding is unmounted, its timer cleared and its listener removed; nothing else changes |
| Session.App.Deliver | src/App.js:473-501 | a metadata event or timer firing advances the live binding by Playback.Fire; play() starts the video only when called and allowed; a refused play() changes nothing but the count, which stays at most two |
| Session.App.Commit | src/App.js:457-508 | the session's own state, its element refs and every element's size, connection and paused flag are unchanged; when `stream` changed, either the new stream is bound (recorded, made the video's source, fresh binding, the old element's listener removed) or the old binding is cleaned up and every source, the current video's listener (when it is not the bound element) and cameraStreamRef stay; otherwise nothing changes |
| Session.App.CommitAsWritten | src/App.js:450-508 | when `stream` changed, the previous render's stopCamera runs first: the session then holds no stream and shows the camera inactive, the previously committed stream's tracks are stopped and the video is paused, while every element keeps its size and connection; the new stream is then bound to the video if the guard allows, otherwise the old binding is cleaned up, cameraStreamRef stays, the video keeps its listener when it is not the bound element and is left without a source; with `stream` unchanged nothing changes |
| Session.App.Unmount | src/App.js:450-508 | with the video ref already cleared, unmount stops the last committed stream's tracks and leaves no stream held and the camera inactive; the binding becomes its cleaned-up self (play count kept) and its element loses only the listener |
| Scenarios.EndToEnd | src/App.js:48-173 | start, grant, commit, metadata, capture of a 1280x720 frame: the photo is the encoding, the canvas is 1280x720, the video played, the track is stopped and the camera is inactive |
| Scenarios.StaleStopDropsGrantedStream | src/App.js:450-455 | as written, the commit after a grant drops the new stream while the video still shows it, and the next commit stops its tracks |
| Scenarios.GrantedStreamSurvivesCommit | src/App.js:457-508 | with the camera stopped only at unmount, a granted stream stays held, active, shown and live across the commit |
| Scenarios.RetryAfterTooSmallEncoding | src/App.js:146-172 | a too-short encoding leaves no photo and the camera on, so the next capture succeeds without a new request |
| Scenarios.LateGrantAfterStop | src/App.js:48-71 | a grant that arrives after a stop is still taken |
| Scenarios.SecondGrantLeaksFirst | src/App.js:48-71 | a second grant replaces the first stream, whose track is never stopped |
| Scenarios.StopTwice | src/App.js:74-89 | stopping twice leaves no stream, stops every track of the held stream and no other |

## Findings

| source | as written | input that shows it | evidently intended | confidence | as-written member | corrected member |
|---|---|---|---|---|---|---|
| src/App.js:450-455 | The "cleanup on unmount" effect depends on `stopCamera`. `useCallback` recreates `stopCamera` on every change of `stream`, so React runs the cleanup on every such change: the previous render's `stopCamera` runs, not only at unmount. | Start Camera and permission granted: on the next commit the old `stopCamera` (which held no stream) clears `stream` and `cameraActive`. On the commit after that, the old `stopCamera` holding the new stream stops its tracks. | Stop the camera only at unmount. | High (React re-runs an effect's cleanup whenever a dependency changes); not executed | Session.App.CommitAsWritten, exhibited by Scenarios.StaleStopDropsGrantedStream | Session.App.Commit, with Scenarios.GrantedStreamSurvivesCommit and Scenarios.EndToEnd |

## Left out

- The upload in `handleSubmit` and the `isSubmitting` flag are not modelled. The same goes for `loadVisitors`, `deleteVisitor`, `saveEdit`, `loadStats` and the search fetch. They are request/response calls to the remote API.
- `printVisitors` and `exportToPDF` are left out: they build HTML for a print window.
- All rendering, the flat-number options and console logging are left out. The video and canvas elements exist when the environment supplies them: the model does not derive their presence from `cameraActive` and `photo`.
- `handleInputChange` (editing a form field) is left out: the form's fields are part of the state but no edit operation is modelled.
- Drawing and JPEG encoding at quality 0.85 are abstract: the encoder's output is the `dataUrl` parameter of `CapturePhoto`.
- The stats bar widths and percentages are left out: they are floating-point display arithmetic.
- The admin login and logout are left out.
- Timing is not modelled: getUserMedia latency, the 1000 ms delay itself and React's render scheduling. Each completion is an event method. The outcome of a `play()` promise is folded into the trigger that called it, as `playAllowed`.
- A `loadedmetadata` event delivered after `srcObject` was cleared is not excluded. It can only reach a binding whose triggers are already bounded by the same budget.
- A getUserMedia result that arrives after unmount is not modelled as discarded. React ignores state updates on an unmounted component, and the stream it carries leaks.
- Session.App.StopCamera, Session.App.CapturePhoto, Session.App.SetupBinding, Session.App.Commit, Session.App.CommitAsWritten: assigning `srcObject` does not reset the element: the model keeps the video's readyState, size and paused flag, where the browser's media element load algorithm would drop readyState to HAVE_NOTHING, report a 0x0 size and pause. Readiness is supplied by the environment between events, so a capture right after a stop is not refused as "not ready" the way the browser would refuse it.
- Playback.Fire: treats `loadedmetadata` as raised once for the source the setup assigned, as the browser does for one `srcObject` assignment. The listener `handleMetadata` itself is registered without `once` and stays until cleanup (src/App.js:493, 505), so a second event would call play() again; the two-play bound rests on that browser behaviour.
- Session.App.Notify: the component shows one notification at a time and hides it after 5000 ms; the model keeps every notification in a log.

=== FILE: capture.dfy ===
/** Taking one still frame off the live video: the readiness checks made
    before any drawing, the 2D context, and the minimum size of the encoded
    data URL. Drawing and JPEG encoding are abstract: the encoder's output is
    an input here. Each attempt is independent of earlier ones. */
module Capture {
  import opened Wrappers
  import opened Media

  /** `HTMLMediaElement.HAVE_CURRENT_DATA`: the current frame is decoded. */
  const HaveCurrentData: nat := 2

  /** The shortest data URL accepted as a photo. */
  const MinPhotoLength: nat := 100

  datatype CaptureError =
    | SurfaceMissing                        // no video or no canvas element
    | NotReady(readyState: nat)             // readyState below HAVE_CURRENT_DATA
    | NoDimensions(width: nat, height: nat) // the video reports a zero size
    | NoContext                             // getContext('2d') gave null
    | TooSmall(length: nat)                 // the data URL is under MinPhotoLength

  /** The checks made before the canvas is touched, in the order the
      component makes them; None means the frame may be drawn. */
  function Gate(video: Option<VideoReading>, canvasPresent: bool): (r: Option<CaptureError>)
    ensures r.None? <==>
      && video.Some? && canvasPresent
      && video.value.readyState >= HaveCurrentData
      && video.value.width > 0 && video.value.height > 0
    ensures r == Some(SurfaceMissing) <==> video.None? || !canvasPresent
    ensures video.Some? && canvasPresent && video.value.readyState < HaveCurrentData ==>
      r == Some(NotReady(video.value.readyState))
    ensures r.Some? && r.value.NoDimensions? ==>
      video.Some? && video.value.readyState >= HaveCurrentData
    ensures
      (&& video.Some? && canvasPresent && video.value.readyState >= HaveCurrentData
       && (video.value.width == 0 || video.value.height == 0))
      ==> r == Some(NoDimensions(video.value.width, video.value.height))
  {
    if video.None? || !canvasPresent then Some(SurfaceMissing)
    else if video.value.readyState < HaveCurrentData then Some(NotReady(video.value.readyState))
    else if video.value.width == 0 || video.value.height == 0 then
      Some(NoDimensions(video.value.width, video.value.height))
    else None
  }

  /** One capture attempt. `canvas` is None when there is no canvas element
      and otherwise says whether it yields a 2D context; `dataUrl` is what the
      encoder produced from the drawn frame. Only a frame from a ready,
      non-empty video, drawn through a context and encoded to at least
      MinPhotoLength characters, becomes the photo. */
  function Take(video: Option<VideoReading>, canvas: Option<bool>, dataUrl: string)
    : (r: Result<string, CaptureError>)
    ensures r.Success? <==>
      Gate(video, canvas.Some?).None? && canvas == Some(true) && |dataUrl| >= MinPhotoLength
    ensures r.Success? ==> r.value == dataUrl && |r.value| >= MinPhotoLength
    ensures Gate(video, canvas.Some?).Some? ==> r == Failure(Gate(video, canvas.Some?).value)
    ensures Gate(video, canvas.Some?).None? && canvas == Some(false) ==> r == Failure(NoContext)
    ensures r == Failure(TooSmall(|dataUrl|)) <==>
      Gate(video, canvas.Some?).None? && canvas == Some(true) && |dataUrl| < MinPhotoLength
  {
    match Gate(video, canvas.Some?)
    case Some(e) => Failure(e)
    case None =>
      if canvas != Some(true) then Failure(NoContext)
      else if |dataUrl| < MinPhotoLength then Failure(TooSmall(|dataUrl|))
      else Success(dataUrl)
  }

  /** The text before the length in the too-small notification. */
  const TooSmallPrefix := "Failed to capture photo: Generated photo data is invalid or too small. Length: "

  /** The notification text the component shows for each failure; the
      too-small text ends with the rejected length in decimal. */
  function Message(e: CaptureError): (r: string)
    ensures e.TooSmall? ==>
      && |r| > |TooSmallPrefix| && r[..|TooSmallPrefix|] == TooSmallPrefix
      && DigitsValue(r[|TooSmallPrefix|..]) == e.length
  {
    match e
    case SurfaceMissing => "Camera not ready. Please try again."
    case NotReady(_) => "Camera not ready. Please wait and try again."
    case NoDimensions(_, _) => "Video dimensions are 0. Please try again."
    case NoContext => "Failed to capture photo: Failed to get 2D context"
    case TooSmall(n) =>
      var r := TooSmallPrefix + Decimal(n);
      assert r[|TooSmallPrefix|..] == Decimal(n);
      r
  }

  /** Two failures announced with the same text are the same kind of
      failure, and two too-small failures with the same text rejected the
      same length: the user can tell the causes apart. */
  lemma MessageIdentifiesFailure(e1: CaptureError, e2: CaptureError)
    requires Message(e1) == Message(e2)
    ensures e1.SurfaceMissing? == e2.SurfaceMissing? && e1.NotReady? == e2.NotReady?
    ensures e1.NoDimensions? == e2.NoDimensions? && e1.NoContext? == e2.NoContext?
    ensures e1.TooSmall? == e2.TooSmall?
    ensures e1.TooSmall? ==> e1 == e2
  {
  }

  /** The number a string of decimal digits spells. */
  function DigitsValue(s: string): nat
  {
    if s == [] then 0
    else
      var d := s[|s| - 1] as int - '0' as int;
      DigitsValue(s[..|s| - 1]) * 10 + (if 0 <= d then d else 0)
  }

  /** A length written out in decimal, as string concatenation does: the
      digits spell `n`. */
  function Decimal(n: nat): (s: string)
    ensures |s| >= 1
    ensures forall i :: 0 <= i < |s| ==> '0' <= s[i] <= '9'
    ensures DigitsValue(s) == n
    ensures n > 0 ==> s[0] != '0'
    ensures |s| > 1 ==> s[0] != '0'
  {
    if n < 10 then ['0' + n as char]
    else
      var s := Decimal(n / 10) + ['0' + (n % 10) as char];
      assert s[..|s| - 1] == Decimal(n / 10);
      s
  }
}

=== FILE: checkin.dfy ===
/** The check-in form and the gating that keeps a visit from being sent
    without a photo. JavaScript truthiness is made explicit: a string field
    counts as filled when it is non-empty, and `photo` when it is a non-empty
    string rather than null. */
module CheckIn {
  import opened Wrappers

  datatype Form = Form(name: string, phone: string, flatNumber: string, flatOwnerEmail: string)

  /** The form as first shown and as left by a reset. */
  const EmptyForm: Form := Form("", "", "", "")

  /** `photo` is truthy. */
  predicate PhotoTaken(photo: Option<string>)
  {
    photo.Some? && photo.value != ""
  }

  /** `formData.name && formData.phone && formData.flatNumber && photo`,
      which enables the submit button. The owner's e-mail is optional. */
  function IsFormValid(form: Form, photo: Option<string>): (r: bool)
    ensures r ==> PhotoTaken(photo)
  {
    form.name != "" && form.phone != "" && form.flatNumber != "" && PhotoTaken(photo)
  }

  /** The flat owner's e-mail plays no part in the gate. */
  lemma EmailIsOptional(form: Form, photo: Option<string>, email: string)
    ensures IsFormValid(form.(flatOwnerEmail := email), photo) == IsFormValid(form, photo)
  {
  }

  /** Once the three required fields are filled, holding a photo is exactly
      what enables submission. */
  lemma PhotoCompletesForm(form: Form, photo: Option<string>)
    requires form.name != "" && form.phone != "" && form.flatNumber != ""
    ensures IsFormValid(form, photo) <==> PhotoTaken(photo)
  {
  }

  /** A reset form cannot be submitted, whatever the photo. */
  lemma ResetFormIsInvalid(photo: Option<string>)
    ensures !IsFormValid(EmptyForm, photo)
  {
  }
}

=== FILE: media.dfy ===
/** The browser objects the capture session touches, reduced to the state it
    reads and writes: a camera stream and its tracks, the `<video>` element
    that shows it and the hidden `<canvas>` a frame is drawn on. */
module Media {

  /** What a capture reads off the video element before drawing. */
  datatype VideoReading = VideoReading(readyState: nat, width: nat, height: nat)

  /** A stream granted by getUserMedia. The object itself is the stream's
      identity (the component compares streams with `===`); track `i` has
      been stopped exactly when `stopped[i]` holds. */
  class MediaStream {
    const stopped: array<bool>

    constructor (trackCount: nat)
      ensures fresh(stopped) && stopped.Length == trackCount
      ensures forall i :: 0 <= i < trackCount ==> !stopped[i]
    {
      stopped := new bool[trackCount](_ => false);
    }

    /** Every track of the stream has been stopped: the camera is released. */
    predicate Released()
      reads stopped
    {
      forall i :: 0 <= i < stopped.Length ==> stopped[i]
    }

    /** `getTracks().forEach(track => track.stop())`. Stopping a track that
        is already stopped does nothing, so this may run any number of times. */
    method StopTracks()
      modifies stopped
      ensures Released()
    {
      var i := 0;
      while i < stopped.Length
        invariant 0 <= i <= stopped.Length
        invariant forall j :: 0 <= j < i ==> stopped[j]
      {
        stopped[i] := true;
        i := i + 1;
      }
    }
  }

  /** A `<video>` element. `readyState`, the intrinsic size and `connected`
      (the DOM's isConnected) are the browser's; the component writes
      `srcObject` and `paused` and registers a `loadedmetadata` listener. */
  class Video {
    var readyState: nat
    var videoWidth: nat
    var videoHeight: nat
    var connected: bool
    var srcObject: MediaStream?
    var paused: bool
    var metadataListener: bool

    /** A freshly mounted element: nothing loaded, no source, paused. */
    constructor ()
      ensures readyState == 0 && videoWidth == 0 && videoHeight == 0 && connected
      ensures srcObject == null && paused && !metadataListener
    {
      readyState, videoWidth, videoHeight, connected := 0, 0, 0, true;
      srcObject, paused, metadataListener := null, true, false;
    }

    function Reading(): VideoReading
      reads this
    {
      VideoReading(readyState, videoWidth, videoHeight)
    }
  }

  /** The hidden `<canvas>`; `has2dContext` is whether `getContext('2d')`
      returns a context rather than null. */
  class Canvas {
    var width: nat
    var height: nat
    var has2dContext: bool

    /** A new canvas has the HTML default size of 300 by 150. */
    constructor (has2dContext: bool)
      ensures width == 300 && height == 150 && this.has2dContext == has2dContext
    {
      width, height := 300, 150;
      this.has2dContext := has2dContext;
    }
  }
}

=== FILE: playback.dfy ===
/** One run of the stream-binding effect after it has bound a stream to the
    video: the closure's `mounted` flag, its fallback timer (FallbackDelayMs), the one
    `loadedmetadata` event the new source will raise, and how many times
    `play()` has been called for it. Both triggers stay armed until they fire
    or the effect is cleaned up; firing one does not cancel the other. */
module Playback {

  /** The fallback delay, in milliseconds, of the play timer. */
  const FallbackDelayMs: nat := 1000

  datatype Binding = Binding(mounted: bool, timerPending: bool, metadataDue: bool, plays: nat)

  /** The state right after setup: listener registered, timer armed, the
      source's metadata still to come, no play yet. */
  const Fresh: Binding := Binding(true, true, true, 0)

  /** What can happen to a binding. `connected` is the element's isConnected
      at the moment the trigger runs. */
  datatype Trigger =
    | LoadedMetadata(connected: bool)
    | FallbackTimer(connected: bool)
    | Cleanup

  /** 1 when attemptPlay gets as far as calling play(). */
  function Attempt(b: Binding, connected: bool): nat
  {
    if b.mounted && connected then 1 else 0
  }

  /** The effect's handlers. The timer fires at most once and the source's
      `loadedmetadata` event is raised once; each calls attemptPlay, which plays only while mounted and
      connected; cleanup clears `mounted`, removes the listener and clears
      the timer. */
  function Fire(b: Binding, t: Trigger): (r: Binding)
    ensures r.plays == b.plays || r.plays == b.plays + 1
    ensures r.plays == b.plays + 1 <==>
      b.mounted && !t.Cleanup? && t.connected &&
      (if t.LoadedMetadata? then b.metadataDue else b.timerPending)
    ensures r.mounted == (b.mounted && !t.Cleanup?)
    ensures r.timerPending ==> b.timerPending
    ensures r.metadataDue ==> b.metadataDue
    ensures t.LoadedMetadata? ==> !r.metadataDue
    ensures !t.LoadedMetadata? ==> !r.timerPending
  {
    match t
    case LoadedMetadata(connected) =>
      if b.metadataDue then b.(metadataDue := false, plays := b.plays + Attempt(b, connected)) else b
    case FallbackTimer(connected) =>
      if b.timerPending then b.(timerPending := false, plays := b.plays + Attempt(b, connected)) else b
    case Cleanup =>
      b.(mounted := false, timerPending := false)
  }

  /** The binding after the triggers `ts`, in order. */
  function Run(b: Binding, ts: seq<Trigger>): Binding
    decreases |ts|
  {
    if ts == [] then b else Run(Fire(b, ts[0]), ts[1..])
  }

  /** Plays made so far plus the triggers still able to play: at most two. */
  ghost predicate WithinBudget(b: Binding)
  {
    b.plays
      + (if b.mounted && b.timerPending then 1 else 0)
      + (if b.mounted && b.metadataDue then 1 else 0)
      <= 2
  }

  lemma FreshWithinBudget()
    ensures WithinBudget(Fresh) && Fresh.plays == 0
  {
  }

  /** Every trigger keeps the budget. */
  lemma FireKeepsBudget(b: Binding, t: Trigger)
    requires WithinBudget(b)
    ensures WithinBudget(Fire(b, t))
  {
  }

  lemma {:induction false} RunKeepsBudget(b: Binding, ts: seq<Trigger>)
    requires WithinBudget(b)
    ensures WithinBudget(Run(b, ts))
    decreases |ts|
  {
    if ts != [] {
      FireKeepsBudget(b, ts[0]);
      RunKeepsBudget(Fire(b, ts[0]), ts[1..]);
    }
  }

  /** Whatever order the metadata event, the timer and the cleanup come in,
      and however often the timer and cleanup are delivered, one binding calls
      play() at most twice. The browser raises `loadedmetadata` once for the
      source the setup assigned; `metadataDue` records that, although the
      listener itself stays registered until cleanup. */
  lemma AtMostTwoPlays(ts: seq<Trigger>)
    ensures Run(Fresh, ts).plays <= 2
  {
    RunKeepsBudget(Fresh, ts);
  }

  /** Once cleaned up, a binding never calls play() again. */
  lemma {:induction false} UnmountedStaysSilent(b: Binding, ts: seq<Trigger>)
    requires !b.mounted
    ensures Run(b, ts).plays == b.plays && !Run(b, ts).mounted
    decreases |ts|
  {
    if ts != [] {
      UnmountedStaysSilent(Fire(b, ts[0]), ts[1..]);
    }
  }

  lemma NoPlayAfterCleanup(b: Binding, ts: seq<Trigger>)
    ensures Run(Fire(b, Cleanup), ts).plays == b.plays
  {
    UnmountedStaysSilent(Fire(b, Cleanup), ts);
  }

  /** The metadata event does not cancel the fallback timer: when both fire
      on a connected element, play() is called twice. */
  lemma MetadataLeavesTimerArmed()
    ensures Run(Fresh, [LoadedMetadata(true), FallbackTimer(true)]).plays == 2
  {
  }

  /** play() calls never go away. */
  lemma {:induction false} RunMonotone(b: Binding, ts: seq<Trigger>)
    ensures Run(b, ts).plays >= b.plays
    decreases |ts|
  {
    if ts != [] {
      RunMonotone(Fire(b, ts[0]), ts[1..]);
    }
  }

  /** The fallback: if the timer fires on a connected element while the
      binding is still mounted, with nothing but metadata events before it,
      play() has been called at least once, whether or not the metadata
      event ever came. */
  lemma {:induction false} FallbackPlays(b: Binding, ts: seq<Trigger>, k: nat)
    requires b.mounted && b.timerPending
    requires k < |ts| && ts[k] == FallbackTimer(true)
    requires forall i :: 0 <= i < k ==> ts[i].LoadedMetadata?
    ensures Run(b, ts).plays >= b.plays + 1
    decreases |ts|
  {
    var b' := Fire(b, ts[0]);
    if k == 0 {
      RunMonotone(b', ts[1..]);
    } else {
      FallbackPlays(b', ts[1..], k - 1);
    }
  }
}

=== FILE: scenarios.dfy ===
/** Whole runs of the session on fresh objects, as the browser and React
    would drive it: each method plays one sequence of events and its
    postcondition states what the run ends in. */
module Scenarios {
  import opened Wrappers
  import opened Media
  import Capture
  import Playback
  import opened Session

  /** An encoder output of `n` characters. */
  function DataUrl(n: nat): (s: string)
    ensures |s| == 23 + n
  {
    "data:image/jpeg;base64," + seq(n, _ => 'A')
  }

  /** A session whose camera is on: start, a stream of `tracks` live tracks
      granted and committed, and a video decoded to `width` by `height`. */
  method LiveSession(tracks: nat, width: nat, height: nat)
    returns (app: App, s: MediaStream, v: Video, c: Canvas)
    requires tracks > 0
    ensures fresh(app) && fresh(s) && fresh(s.stopped) && fresh(v) && fresh(c)
    ensures app.Valid() && app.stream == s && app.cameraActive && app.photo == None
    ensures app.video == v && app.canvas == c && app.pendingRequests == 0
    ensures v.Reading() == VideoReading(4, width, height) && v.srcObject == s
    ensures v.connected && app.binding == Some(Playback.Fresh) && app.boundVideo == v
    ensures c.has2dContext && s.stopped.Length == tracks && !s.stopped[0]
  {
    s := new MediaStream(tracks);
    v := new Video();
    c := new Canvas(true);
    app := new App(v, c);
    app.StartCamera();
    app.AcquisitionSettled(Granted(s));
    app.Commit();
    v.readyState, v.videoWidth, v.videoHeight := 4, width, height;
  }

  /** Start, grant a one-track stream, commit, metadata arrives and play is
      allowed, the video decodes a 1280x720 frame, capture: the photo is the
      encoding, the canvas has the video's size, the camera is released. */
  method EndToEnd() returns (photo: Option<string>, width: nat, height: nat, playing: bool,
                             released: bool, active: bool)
    ensures photo == Some(DataUrl(120)) && |photo.value| >= Capture.MinPhotoLength
    ensures width == 1280 && height == 720
    ensures playing && released && !active
  {
    var app, s, v, c := LiveSession(1, 1280, 720);
    app.Deliver(MetadataLoaded, true);
    playing := !v.paused;
    assert app.CaptureOutcome(DataUrl(120)).Success?;
    app.CapturePhoto(DataUrl(120));
    photo, width, height, released, active := app.photo, c.width, c.height, s.Released(), app.cameraActive;
  }

  /** The source as written: the commit after a stream is granted runs the
      previous render's stopCamera (which holds no stream) before binding, so
      the component drops the new stream while the video shows it; the next
      commit's stale stopCamera then stops its tracks. No capture is ever
      possible. */
  method StaleStopDropsGrantedStream()
    returns (heldAfterGrant: bool, heldAfterCommit: bool, shownAfterCommit: bool,
             activeAfterCommit: bool, released: bool)
    ensures heldAfterGrant && !heldAfterCommit && shownAfterCommit && !activeAfterCommit
    ensures released
  {
    var s := new MediaStream(1);
    var v := new Video();
    var c := new Canvas(true);
    var app := new App(v, c);
    app.StartCamera();
    app.AcquisitionSettled(Granted(s));
    heldAfterGrant := app.stream == s;
    app.CommitAsWritten();
    heldAfterCommit, shownAfterCommit, activeAfterCommit := app.stream == s, v.srcObject == s, app.cameraActive;
    app.CommitAsWritten();
    released := s.Released();
  }

  /** With the camera stopped only at unmount, the commit after a grant
      binds the stream and the component keeps it, live, until a capture. */
  method GrantedStreamSurvivesCommit() returns (held: bool, active: bool, shown: bool, released: bool)
    ensures held && active && shown && !released
  {
    var s := new MediaStream(1);
    var v := new Video();
    var c := new Canvas(true);
    var app := new App(v, c);
    app.StartCamera();
    app.AcquisitionSettled(Granted(s));
    assert !s.stopped[0];
    app.Commit();
    held, active, shown, released := app.stream == s, app.cameraActive, v.srcObject == s, s.Released();
  }

  /** An encoding under the minimum is refused and leaves the camera on, so
      the next capture succeeds on the same stream without a new request. */
  method RetryAfterTooSmallEncoding()
    returns (firstPhoto: Option<string>, activeBetween: bool, requests: nat, secondPhoto: Option<string>)
    ensures firstPhoto == None && activeBetween && requests == 0
    ensures secondPhoto == Some(DataUrl(100))
  {
    var app, s, v, c := LiveSession(2, 640, 480);
    assert app.VideoState() == Some(VideoReading(4, 640, 480)) && app.CanvasState() == Some(true);
    assert app.CaptureOutcome(DataUrl(40)).Failure?;
    app.CapturePhoto(DataUrl(40));
    firstPhoto, activeBetween, requests := app.photo, app.cameraActive, app.pendingRequests;
    assert app.VideoState() == Some(VideoReading(4, 640, 480)) && app.CanvasState() == Some(true);
    assert app.CaptureOutcome(DataUrl(100)).Success?;
    app.CapturePhoto(DataUrl(100));
    secondPhoto := app.photo;
  }

  /** A getUserMedia result that arrives after the camera was stopped is
      still taken: the component ends up holding the late stream. */
  method LateGrantAfterStop() returns (held: bool, active: bool)
    ensures held && active
  {
    var s := new MediaStream(1);
    var app := new App(null, null);
    app.StartCamera();
    app.StopCamera(app.stream);
    app.AcquisitionSettled(Granted(s));
    held, active := app.stream == s, app.cameraActive;
  }

  /** Two requests both granted: the second stream replaces the first,
      whose tracks are never stopped. */
  method SecondGrantLeaksFirst() returns (firstHeld: bool, firstReleased: bool, secondHeld: bool)
    ensures !firstHeld && !firstReleased && secondHeld
  {
    var s1 := new MediaStream(1);
    var s2 := new MediaStream(1);
    var v := new Video();
    var app := new App(v, null);
    assert !s1.stopped[0];
    app.StartCamera();
    app.StartCamera();
    app.AcquisitionSettled(Granted(s1));
    app.Commit();
    app.AcquisitionSettled(Granted(s2));
    app.Commit();
    firstHeld, firstReleased, secondHeld := app.stream == s1, s1.Released(), app.stream == s2;
  }

  /** Stopping twice: the second call finds no stream and stops no track. */
  method StopTwice() returns (held: bool, active: bool, released: bool, otherReleased: bool)
    ensures !held && !active && released && !otherReleased
  {
    var s := new MediaStream(2);
    var other := new MediaStream(1);
    var v := new Video();
    var app := new App(v, null);
    assert !other.stopped[0];
    app.StartCamera();
    app.AcquisitionSettled(Granted(s));
    app.StopCamera(app.stream);
    app.StopCamera(app.stream);
    held, active, released, otherReleased := app.stream != null, app.cameraActive, s.Released(), other.Released();
  }
}

=== FILE: session.dfy ===
/** The camera capture session of the check-in page: the component's state
    (`stream`, `cameraActive`, `photo`, `photoPreview`, the form and the
    notification shown), its refs (`cameraStreamRef` and the video and canvas
    surfaces, either of which may be absent), and the closures of the
    stream-binding effect. Every asynchronous completion (a getUserMedia
    result, the metadata event, the fallback timer, a React commit) is a
    method the environment calls, in whatever order it happens. */
module Session {
  import opened Wrappers
  import opened Media
  import Capture
  import Playback
  import CheckIn

  datatype Kind = Info | Success | Error

  datatype Notification = Notification(kind: Kind, message: string)

  /** How a getUserMedia request settles: a new stream, or a rejection
      (permission refused, no camera, camera busy). */
  datatype Acquisition = Granted(stream: MediaStream) | Refused

  /** The two triggers of a play attempt. */
  datatype PlayEvent = MetadataLoaded | TimerElapsed

  const CameraReady := "Camera ready! Click \"Capture Photo\" when ready."
  const CameraDenied := "Camera access denied. Please enable permissions in browser settings."
  const PhotoCaptured := "✅ Photo captured successfully!"
  const PhotoMissing := "Please take a photo first"

  /** A binding after the effect's cleanup. */
  function CleanedUp(b: Option<Playback.Binding>): Option<Playback.Binding>
  {
    if b.None? then None else Some(Playback.Fire(b.value, Playback.Cleanup))
  }

  class App {
    var form: CheckIn.Form
    var photo: Option<string>
    var photoPreview: Option<string>
    var cameraActive: bool
    var stream: MediaStream?
    var notifications: seq<Notification>   // every notification shown, oldest first

    var cameraStreamRef: MediaStream?      // the stream last bound to the video
    var video: Video?                      // videoRef.current
    var canvas: Canvas?                    // canvasRef.current

    var pendingRequests: nat               // getUserMedia calls not yet settled
    var committedStream: MediaStream?      // `stream` as of the last commit: what the effects last ran with
    var binding: Option<Playback.Binding>  // the last run of the binding effect that bound a stream
    var boundVideo: Video?                 // the element that run bound it to

    /** The session's invariant: the camera is only shown active while a
        stream is held, the preview is the photo, a photo is never shorter
        than the accepted minimum, and the live binding's listener matches
        its `mounted` flag and it has not used more than its two plays. */
    ghost predicate Valid()
      reads this, boundVideo
    {
      && (cameraActive ==> stream != null)
      && photoPreview == photo
      && (photo.Some? ==> |photo.value| >= Capture.MinPhotoLength)
      && (binding.Some? <==> boundVideo != null)
      && (binding.Some? ==>
            boundVideo.metadataListener == binding.value.mounted
            && Playback.WithinBudget(binding.value))
    }

    /** The component on first render, with whatever surfaces are mounted. */
    constructor (video: Video?, canvas: Canvas?)
      ensures Valid()
      ensures form == CheckIn.EmptyForm && photo == None && photoPreview == None
      ensures !cameraActive && stream == null && notifications == []
      ensures cameraStreamRef == null && this.video == video && this.canvas == canvas
      ensures pendingRequests == 0 && committedStream == null && binding == None && boundVideo == null
    {
      form := CheckIn.EmptyForm;
      photo, photoPreview := None, None;
      cameraActive, stream, notifications := false, null, [];
      cameraStreamRef, this.video, this.canvas := null, video, canvas;
      pendingRequests, committedStream, binding, boundVideo := 0, null, None, null;
    }

    /** The video's readiness and size, or None without a video element. */
    function VideoState(): Option<VideoReading>
      reads this, video
    {
      if video == null then None else Some(video.Reading())
    }

    /** None without a canvas element, else whether it gives a 2D context. */
    function CanvasState(): Option<bool>
      reads this, canvas
    {
      if canvas == null then None else Some(canvas.has2dContext)
    }

    /** showNotification: the message is appended to what has been shown. */
    method Notify(kind: Kind, message: string)
      requires Valid()
      modifies this`notifications
      ensures Valid()
      ensures notifications == old(notifications) + [Notification(kind, message)]
    {
      notifications := notifications + [Notification(kind, message)];
    }

    /** startCamera up to its await: a getUserMedia request is issued and
        nothing else changes. It does not check for a stream already held. */
    method StartCamera()
      requires Valid()
      modifies this`pendingRequests
      ensures Valid()
      ensures pendingRequests == old(pendingRequests) + 1
    {
      pendingRequests := pendingRequests + 1;
    }

    /** The rest of startCamera, once getUserMedia settles. A granted stream
        replaces whatever is held (no track of a replaced stream is stopped)
        and is taken even if the camera was stopped meanwhile; a refusal only
        notifies. */
    method AcquisitionSettled(outcome: Acquisition)
      requires Valid()
      requires pendingRequests > 0
      modifies this`pendingRequests, this`stream, this`cameraActive, this`notifications
      ensures Valid()
      ensures pendingRequests == old(pendingRequests) - 1
      ensures outcome.Granted? ==>
        && stream == outcome.stream && cameraActive
        && notifications == old(notifications) + [Notification(Info, CameraReady)]
      ensures outcome.Refused? ==>
        && stream == old(stream) && cameraActive == old(cameraActive)
        && notifications == old(notifications) + [Notification(Error, CameraDenied)]
    {
      pendingRequests := pendingRequests - 1;
      match outcome
      case Granted(s) =>
        stream := s;
        cameraActive := true;
        Notify(Info, CameraReady);
      case Refused =>
        Notify(Error, CameraDenied);
    }

    /** stopCamera as created in a render where `stream` was `s`: every track
        of `s` is stopped, the video (if any) is paused and detached, and the
        component holds no stream and shows the camera inactive. With `s`
        null no track is touched, so a second call stops nothing more. */
    method StopCamera(s: MediaStream?)
      requires Valid()
      modifies this`stream, this`cameraActive, video, if s == null then {} else {s.stopped}
      ensures Valid()
      ensures stream == null && !cameraActive
      ensures s != null ==> s.Released()
      ensures video != null ==>
        && video.paused && video.srcObject == null
        && video.Reading() == old(video.Reading()) && video.connected == old(video.connected)
        && video.metadataListener == old(video.metadataListener)
    {
      if s != null {
        s.StopTracks();
      }
      if video != null {
        video.paused := true;
        video.srcObject := null;
      }
      stream := null;
      cameraActive := false;
    }

    /** What a capture made now with encoder output `dataUrl` would give. */
    ghost function CaptureOutcome(dataUrl: string): Result<string, Capture.CaptureError>
      reads this, video, canvas
    {
      Capture.Take(VideoState(), CanvasState(), dataUrl)
    }

    /** capturePhoto, with `dataUrl` the encoder's output for the drawn frame.
        A missing surface, a video not ready or of zero size only notifies.
        Past those checks the canvas takes the video's size; then a missing
        2D context or a too short encoding only notifies, leaving the camera
        on for another try. Otherwise the photo and its preview become the
        encoding and the camera is stopped. */
    method CapturePhoto(dataUrl: string)
      requires Valid()
      modifies this`photo, this`photoPreview, this`stream, this`cameraActive, this`notifications
      modifies video, canvas, if stream == null then {} else {stream.stopped}
      ensures Valid()
      ensures video == old(video) && canvas == old(canvas) && pendingRequests == old(pendingRequests)
      ensures old(CaptureOutcome(dataUrl)).Failure? ==>
        && photo == old(photo) && photoPreview == old(photoPreview)
        && stream == old(stream) && cameraActive == old(cameraActive)
        && (stream != null ==> stream.stopped[..] == old(stream.stopped[..]))
        && (video != null ==> video.paused == old(video.paused) && video.srcObject == old(video.srcObject))
        && notifications ==
             old(notifications) + [Notification(Error, Capture.Message(old(CaptureOutcome(dataUrl)).error))]
      ensures old(CaptureOutcome(dataUrl)).Success? ==>
        && photo == Some(dataUrl) && photoPreview == Some(dataUrl)
        && stream == null && !cameraActive
        && (old(stream) != null ==> old(stream).Released())
        && video.paused && video.srcObject == null
        && notifications == old(notifications) + [Notification(Kind.Success, PhotoCaptured)]
      ensures old(Capture.Gate(VideoState(), canvas != null)).None? ==>
        canvas.width == video.videoWidth && canvas.height == video.videoHeight
      ensures old(Capture.Gate(VideoState(), canvas != null)).Some? && canvas != null ==>
        canvas.width == old(canvas.width) && canvas.height == old(canvas.height)
      ensures canvas != null ==> canvas.has2dContext == old(canvas.has2dContext)
      ensures video != null ==>
        && video.Reading() == old(video.Reading()) && video.connected == old(video.connected)
        && video.metadataListener == old(video.metadataListener)
    {
      var reading, surface := VideoState(), CanvasState();
      var gate := Capture.Gate(reading, canvas != null);
      if gate.Some? {
        Notify(Error, Capture.Message(gate.value));
        return;
      }
      canvas.width := video.videoWidth;
      canvas.height := video.videoHeight;
      match Capture.Take(reading, surface, dataUrl)
      case Failure(e) =>
        Notify(Error, Capture.Message(e));
      case Success(data) =>
        photo := Some(data);
        photoPreview := Some(data);
        StopCamera(stream);
        Notify(Kind.Success, PhotoCaptured);
    }

    /** retakePhoto: the photo and preview are cleared, then a new stream is
        requested. */
    method RetakePhoto()
      requires Valid()
      modifies this`photo, this`photoPreview, this`pendingRequests
      ensures Valid()
      ensures photo == None && photoPreview == None
      ensures pendingRequests == old(pendingRequests) + 1
    {
      photo := None;
      photoPreview := None;
      StartCamera();
    }

    /** resetForm: every field, the photo and the camera flag are cleared.
        A held stream is neither stopped nor dropped. */
    method ResetForm()
      requires Valid()
      modifies this`form, this`photo, this`photoPreview, this`cameraActive
      ensures Valid()
      ensures form == CheckIn.EmptyForm && photo == None && photoPreview == None && !cameraActive
      ensures !CheckIn.IsFormValid(form, photo)
    {
      form := CheckIn.EmptyForm;
      photo := None;
      photoPreview := None;
      cameraActive := false;
    }

    /** The photo guard at the head of handleSubmit: without a photo it
        only notifies and nothing is sent; with one it goes on to the
        upload, which is not part of this model. */
    method HandleSubmit() returns (sends: bool)
      requires Valid()
      modifies this`notifications
      ensures Valid()
      ensures sends <==> CheckIn.PhotoTaken(photo)
      ensures !sends ==> notifications == old(notifications) + [Notification(Error, PhotoMissing)]
      ensures sends ==> notifications == old(notifications)
    {
      if photo.None? || photo.value == "" {
        Notify(Error, PhotoMissing);
        return false;
      }
      return true;
    }

    /** The binding effect's setup, run with the committed stream. It does
        nothing without a stream, without a video, or when that stream is the
        one already bound; otherwise it records the stream as bound, makes it
        the video's source, registers the metadata listener and arms the
        fallback timer. React has cleaned up the previous run first. */
    method SetupBinding()
      requires Valid()
      requires binding.None? || !binding.value.mounted
      modifies this`cameraStreamRef, this`binding, this`boundVideo, video
      ensures Valid()
      ensures old(committedStream == null || video == null || cameraStreamRef == committedStream) ==>
        && cameraStreamRef == old(cameraStreamRef) && binding == old(binding) && boundVideo == old(boundVideo)
        && (video != null ==> unchanged(video))
      ensures old(committedStream != null && video != null && cameraStreamRef != committedStream) ==>
        && cameraStreamRef == committedStream && video.srcObject == committedStream
        && binding == Some(Playback.Fresh) && boundVideo == video && video.metadataListener
        && video.Reading() == old(video.Reading()) && video.connected == old(video.connected)
        && video.paused == old(video.paused)
    {
      if committedStream == null || video == null || cameraStreamRef == committedStream {
        return;
      }
      cameraStreamRef := committedStream;
      video.srcObject := committedStream;
      video.metadataListener := true;
      binding := Some(Playback.Fresh);
      boundVideo := video;
    }

    /** The binding effect's cleanup: `mounted` is cleared, the listener is
        removed and the timer cleared. Nothing else changes. */
    method CleanupBinding()
      requires Valid()
      modifies this`binding, boundVideo
      ensures Valid()
      ensures binding == CleanedUp(old(binding))
      ensures old(binding).Some? ==>
        && binding == Some(Playback.Fire(old(binding).value, Playback.Cleanup))
        && !binding.value.mounted && !binding.value.timerPending
        && !boundVideo.metadataListener
        && boundVideo.Reading() == old(boundVideo.Reading()) && boundVideo.connected == old(boundVideo.connected)
        && boundVideo.paused == old(boundVideo.paused) && boundVideo.srcObject == old(boundVideo.srcObject)
    {
      if binding.Some? {
        binding := Some(Playback.Fire(binding.value, Playback.Cleanup));
        boundVideo.metadataListener := false;
      }
    }

    /** The metadata event or the fallback timer reaches the live binding:
        attemptPlay calls play() when the binding is mounted, the element is
        connected and that trigger has not fired before. `playAllowed` is
        whether the browser lets play() start; a refusal is only logged, so
        it changes nothing but the count of attempts. */
    method Deliver(event: PlayEvent, playAllowed: bool)
      requires Valid()
      modifies this`binding, boundVideo
      ensures Valid()
      ensures old(binding).None? ==> binding == None
      ensures old(binding).Some? ==>
        && binding == Some(Playback.Fire(old(binding).value,
             if event == MetadataLoaded then Playback.LoadedMetadata(old(boundVideo.connected))
             else Playback.FallbackTimer(old(boundVideo.connected))))
        && binding.value.plays <= 2
        && boundVideo.paused ==
             (old(boundVideo.paused) && !(playAllowed && binding.value.plays > old(binding).value.plays))
        && boundVideo.Reading() == old(boundVideo.Reading()) && boundVideo.connected == old(boundVideo.connected)
        && boundVideo.srcObject == old(boundVideo.srcObject)
        && boundVideo.metadataListener == old(boundVideo.metadataListener)
    {
      if binding.Some? {
        var before := binding.value;
        var trigger := if event == MetadataLoaded then Playback.LoadedMetadata(boundVideo.connected)
                       else Playback.FallbackTimer(boundVideo.connected);
        Playback.FireKeepsBudget(before, trigger);
        var after := Playback.Fire(before, trigger);
        binding := Some(after);
        if playAllowed && after.plays > before.plays {
          boundVideo.paused := false;
        }
      }
    }

    /** The next commit finds `stream` changed and the binding effect's
        guard open: the new stream gets bound to the video. */
    ghost predicate Rebinds()
      reads this
    {
      stream != committedStream && stream != null && video != null && cameraStreamRef != stream
    }

    /** A React commit. When `stream` differs from what the effects last ran
        with, the binding effect is cleaned up and run again with the new
        value. The session's own state and the elements' playback are left
        alone. (The unmount effect's cleanup stops the camera only at
        unmount; see CommitAsWritten for the source as written.) */
    method Commit()
      requires Valid()
      modifies this`committedStream, this`cameraStreamRef, this`binding, this`boundVideo, video, boundVideo
      ensures Valid()
      ensures video == old(video) && canvas == old(canvas) && pendingRequests == old(pendingRequests)
      ensures committedStream == stream
      ensures stream == old(stream) && cameraActive == old(cameraActive) && photo == old(photo)
      ensures video != null ==>
        && video.Reading() == old(video.Reading()) && video.connected == old(video.connected)
        && video.paused == old(video.paused)
      ensures old(boundVideo) != null ==>
        && old(boundVideo).Reading() == old(boundVideo.Reading())
        && old(boundVideo).connected == old(boundVideo.connected)
        && old(boundVideo).paused == old(boundVideo.paused)
      ensures old(stream == committedStream) ==>
        && cameraStreamRef == old(cameraStreamRef) && binding == old(binding) && boundVideo == old(boundVideo)
        && (video != null ==> unchanged(video)) && (boundVideo != null ==> unchanged(boundVideo))
      ensures old(Rebinds()) ==>
        && cameraStreamRef == stream && video.srcObject == stream
        && binding == Some(Playback.Fresh) && boundVideo == video && video.metadataListener
        && (old(boundVideo) != null && old(boundVideo) != video ==>
              !old(boundVideo).metadataListener && old(boundVideo).srcObject == old(boundVideo.srcObject))
      ensures old(stream != committedStream && !Rebinds()) ==>
        && cameraStreamRef == old(cameraStreamRef) && boundVideo == old(boundVideo)
        && binding == CleanedUp(old(binding))
        && (boundVideo != null ==> !boundVideo.metadataListener)
        && (video != null && video != boundVideo ==> video.metadataListener == old(video.metadataListener))
        && (video != null ==> video.srcObject == old(video.srcObject))
        && (boundVideo != null ==> boundVideo.srcObject == old(boundVideo.srcObject))
    {
      if stream != committedStream {
        CleanupBinding();
        committedStream := stream;
        SetupBinding();
      }
    }

    /** A React commit of the source as written. The unmount effect depends
        on stopCamera, which is recreated whenever `stream` changes, so its
        cleanup (the previous render's stopCamera) runs before the binding
        effect's cleanup and setup on every such commit. */
    method CommitAsWritten()
      requires Valid()
      modifies this`committedStream, this`cameraStreamRef, this`binding, this`boundVideo
      modifies this`stream, this`cameraActive, video, boundVideo
      modifies if committedStream == null then {} else {committedStream.stopped}
      ensures Valid()
      ensures committedStream == old(stream)
      ensures photo == old(photo)
      ensures video != null ==>
        video.Reading() == old(video.Reading()) && video.connected == old(video.connected)
      ensures old(boundVideo) != null ==>
        && old(boundVideo).Reading() == old(boundVideo.Reading())
        && old(boundVideo).connected == old(boundVideo.connected)
      ensures old(stream == committedStream) ==>
        && stream == old(stream) && cameraActive == old(cameraActive)
        && cameraStreamRef == old(cameraStreamRef) && binding == old(binding) && boundVideo == old(boundVideo)
        && (video != null ==> unchanged(video)) && (boundVideo != null ==> unchanged(boundVideo))
      ensures old(stream != committedStream) ==>
        && stream == null && !cameraActive
        && (old(committedStream) != null ==> old(committedStream).Released())
        && (video != null ==> video.paused)
        && (old(boundVideo) != null && old(boundVideo) != video ==>
              && !old(boundVideo).metadataListener
              && old(boundVideo).paused == old(boundVideo.paused)
              && old(boundVideo).srcObject == old(boundVideo.srcObject))
      ensures old(Rebinds()) ==>
        && cameraStreamRef == old(stream) && video.srcObject == old(stream)
        && binding == Some(Playback.Fresh) && boundVideo == video && video.metadataListener
      ensures old(stream != committedStream && !Rebinds()) ==>
        && cameraStreamRef == old(cameraStreamRef) && boundVideo == old(boundVideo)
        && binding == CleanedUp(old(binding))
        && (boundVideo != null ==> !boundVideo.metadataListener)
        && (video != null && video != boundVideo ==> video.metadataListener == old(video.metadataListener))
        && (video != null ==> video.srcObject == null)
    {
      var rendered := stream;
      if rendered != committedStream {
        StopCamera(committedStream);
        CleanupBinding();
        committedStream := rendered;
        SetupBinding();
      }
    }

    /** Unmount. React has already cleared the refs of the deleted elements,
        so the unmount effect's stopCamera (of the last committed render)
        finds no video: it stops the tracks and clears the state only. The
        binding effect's cleanup still reaches the element it captured. */
    method Unmount()
      requires Valid()
      modifies this`video, this`stream, this`cameraActive, this`binding, boundVideo
      modifies if committedStream == null then {} else {committedStream.stopped}
      ensures Valid()
      ensures video == null && stream == null && !cameraActive
      ensures old(committedStream) != null ==> old(committedStream).Released()
      ensures binding == CleanedUp(old(binding))
      ensures boundVideo != null ==>
        && !boundVideo.metadataListener
        && boundVideo.Reading() == old(boundVideo.Reading()) && boundVideo.connected == old(boundVideo.connected)
        && boundVideo.paused == old(boundVideo.paused) && boundVideo.srcObject == old(boundVideo.srcObject)
    {
      video := null;
      StopCamera(committedStream);
      CleanupBinding();
    }
  }
}

=== FILE: wrappers.dfy ===
/** Optional values and results with an error, used wherever the component
    holds `null` or reports a failure through a notification. */
module Wrappers {

  datatype Option<+T> = None | Some(value: T)

  datatype Result<+R, +E> = Success(value: R) | Failure(error: E)
}
